=== FILE: README.md ===
# GenerateTestExecutionScripts in Dafny

A functional model of the `GenerateTestExecutionScripts` MSBuild task of the
.NET build tools. The task turns a runner-script template into a test
execution script. The dialect comes from the output file's extension: `.sh`
gives a POSIX shell script, `.cmd` and `.bat` give a Windows batch script, and
anything else is an error. The task fills the template's
`[[CopyFilesCommands]]` placeholder with one copy command per test dependency.
It fills the `[[TestRunCommand]]` placeholder with the test commands. For the
shell dialect it also normalises dependency paths, rewrites `CoreRun.exe` to
`./corerun`, replaces each CR LF with LF in one left-to-right pass and ends
the text with one LF.

The file system is not modelled. Template existence, template text and
whether the output directory could be created are inputs, and the script text
the task would write is the output. The platform (`Paths.Platform`: Windows or
Unix) supplies the directory-separator set used by `Path.GetFileName` and
`Path.GetExtension`, and the `Environment.NewLine` used by `AppendLine` and
`WriteLine` in the batch writer.

Files:

- `strings.dfy`, module `Strings`: ordinal `IndexOf`, both `Replace`
  overloads, `Split`, `Join`, and terminated lines. `Replace` is modelled as
  the .NET implementation works: find the first occurrence, replace it and
  continue after it. It proves that this agrees with a character-by-character
  scan, that split and join are inverses and that replacing equals joining
  the split pieces.
- `paths.dfy`, module `Paths`: `Platform`, `GetFileName`, `GetExtension` and
  ASCII lower-casing. It proves that the lower-cased extension is a given
  literal exactly when the path ends with that literal, ignoring case.
- `scripts.dfy`, module `Scripts`: placeholder substitution and the two
  writers, `ShScript` and `CmdScript`, with their copy and run blocks. It
  proves that the shell writer's clean-up deletes exactly the CRs of CR LF
  pairs, so a template with Windows line ends gives a script with Unix ones
  when the dependencies and test commands contain no CR.
- `task.dfy`, module `TestExecutionScripts`: the `Execute` entry point with
  dialect dispatch and its error outcomes.

Structured dependency items, absolute-path dependencies, echo lines, the
`[[TestRunCommands]]` and `[[TestRunCommandsEcho]]` tokens and `exit /b -1`
are not in this version of the task and are not modelled. Every occurrence
of a placeholder is replaced, not just the first one.

## Model

| member | source | states |
|---|---|---|
| Strings.ReplaceAll | src/Microsoft.DotNet.Build.Tasks/GenerateTestExecutionScripts.cs:63 | `String.Replace(string, string)`, used at lines 63, 68, 71, 73, 93 and 94: find the first occurrence, put the replacement in its place and continue after it. Its properties are the lemmas `ReplaceAllIsScan`, `ReplaceAllIsJoinSplit`, `ReplaceSingle`, `ReplaceAllAbsent` and `ReplaceAllChars`. |
| Strings.Join | src/Microsoft.DotNet.Build.Tasks/GenerateTestExecutionScripts.cs:94 | `String.Join`: the parts in order with the separator between neighbours. `SplitJoin` and `JoinSplit` relate it to splitting. |
| Strings.ReplaceAllIsJoinSplit | src/Microsoft.DotNet.Build.Tasks/GenerateTestExecutionScripts.cs:63 | `String.Replace` with a string pattern equals splitting on the pattern and joining with the replacement. So every non-overlapping occurrence, found left to right, is replaced. |
| Strings.ReplaceAllIsScan | src/Microsoft.DotNet.Build.Tasks/GenerateTestExecutionScripts.cs:63 | Replacing occurrence by occurrence agrees with a character-by-character scan that, at each position, either replaces an occurrence starting there or copies the character. |
| Strings.ReplaceSingle | src/Microsoft.DotNet.Build.Tasks/GenerateTestExecutionScripts.cs:63-71 | When a pattern with no proper border occurs exactly once, `Replace` puts the replacement in its place and keeps the text on both sides. |
| Strings.ReplaceAllAbsent | src/Microsoft.DotNet.Build.Tasks/GenerateTestExecutionScripts.cs:71 | Text that does not contain the pattern is returned unchanged. |
| Strings.ReplaceAllChars | src/Microsoft.DotNet.Build.Tasks/GenerateTestExecutionScripts.cs:73 | Any character of a replacement result comes from the input or from the replacement text. |
| Strings.ReplaceChar | src/Microsoft.DotNet.Build.Tasks/GenerateTestExecutionScripts.cs:56 | The character overload of `Replace` keeps the length, maps every `a` to `b` and keeps every other character in place. No `a` is left when `a` differs from `b`. |
| Strings.ReplaceCharIsReplaceAll | src/Microsoft.DotNet.Build.Tasks/GenerateTestExecutionScripts.cs:56 | The character overload of `Replace` agrees with the string overload on one-character strings. |
| Strings.IndexOfFirst | src/Microsoft.DotNet.Build.Tasks/GenerateTestExecutionScripts.cs:63 | The search that `Replace` performs returns -1 or a position where the pattern occurs. No occurrence starts before that position, and none at all when it returns -1. |
| Strings.SplitJoin | src/Microsoft.DotNet.Build.Tasks/GenerateTestExecutionScripts.cs:94 | Splitting a `String.Join` result on the separator gives back the parts, provided no part contains the separator's first character. |
| Strings.JoinSplit | src/Microsoft.DotNet.Build.Tasks/GenerateTestExecutionScripts.cs:94 | Joining the pieces of a split with the separator gives back the original text. |
| Paths.FileName | src/Microsoft.DotNet.Build.Tasks/GenerateTestExecutionScripts.cs:61 | `Path.GetFileName` returns the longest suffix without a separator. That is a suffix of the path, contains no separator, and is preceded by a separator whenever it is shorter than the path. |
| Paths.FileNameAfter | src/Microsoft.DotNet.Build.Tasks/GenerateTestExecutionScripts.cs:90 | The file name is exactly what follows the last separator. |
| Paths.Extension | src/Microsoft.DotNet.Build.Tasks/GenerateTestExecutionScripts.cs:34 | `Path.GetExtension` returns "" or a suffix that starts with `.` and has at least one more character, none of them a dot or separator. When a non-final `.` has no dot or separator after it, the extension is the text from that `.` on. |
| Paths.ToLowerAscii | src/Microsoft.DotNet.Build.Tasks/GenerateTestExecutionScripts.cs:34 | `ToLowerInvariant` on ASCII: every `A`-`Z` becomes its lower-case letter. `ToLowerAsciiLowers` and `ToLowerAsciiExample` state its effect. |
| Paths.ToLowerAsciiLowers | src/Microsoft.DotNet.Build.Tasks/GenerateTestExecutionScripts.cs:34 | Lower-casing keeps the length and turns each ASCII capital into the small letter at the same place in the alphabet. It leaves no ASCII capital, changes no other character, and lower-casing again changes nothing. |
| Paths.ToLowerAsciiExample | src/Microsoft.DotNet.Build.Tasks/GenerateTestExecutionScripts.cs:34 | `.CMD` lower-cases to `.cmd`. |
| Paths.ExtensionIsSuffix | src/Microsoft.DotNet.Build.Tasks/GenerateTestExecutionScripts.cs:34 | The lower-cased extension of the path's file name equals a literal such as `.sh` exactly when the path ends with that literal, ignoring case. |
| Scripts.NormalizeDep | src/Microsoft.DotNet.Build.Tasks/GenerateTestExecutionScripts.cs:56-60 | Every `\` becomes `/`. At most one leading `/` (or `\`) is removed. Every other character is kept in place, and no `\` is left. |
| Scripts.NormalizeDepExample | src/Microsoft.DotNet.Build.Tasks/GenerateTestExecutionScripts.cs:56-60 | `/lib\foo.dll` normalises to `lib/foo.dll`. |
| Scripts.NormalizeDepOneSlash | src/Microsoft.DotNet.Build.Tasks/GenerateTestExecutionScripts.cs:57-60 | Only one leading slash is removed: `//x` becomes `/x`. A second normalisation gives `x`, so normalising is not idempotent. |
| Scripts.FileNameExamples | src/Microsoft.DotNet.Build.Tasks/GenerateTestExecutionScripts.cs:61 | The destination name of `/lib\foo.dll` is `foo.dll` on Windows and `lib\foo.dll` on Unix, where `\` is not a separator. |
| Scripts.ShCopyCommand | src/Microsoft.DotNet.Build.Tasks/GenerateTestExecutionScripts.cs:61 | One `.sh` copy line without its LF: the normalised dependency under `$PACKAGE_DIR` is linked to its file name under `$EXECUTION_DIR`, exiting with the copy's status on failure. `ShCopyCommandExample` and `ShCopyBlockLines` state its text and its place in the block. |
| Scripts.ShCopyCommandExample | src/Microsoft.DotNet.Build.Tasks/GenerateTestExecutionScripts.cs:61 | The exact `.sh` copy line for `/lib\foo.dll` on Windows. |
| Scripts.ShCopyCommandUnixExample | src/Microsoft.DotNet.Build.Tasks/GenerateTestExecutionScripts.cs:61 | The exact `.sh` copy line for `/lib\foo.dll` on Unix: the source path is normalised to `lib/foo.dll`, but the destination name `lib\foo.dll` comes from the dependency as given. |
| Scripts.ShCopyBlock | src/Microsoft.DotNet.Build.Tasks/GenerateTestExecutionScripts.cs:53-62 | The text put in place of `[[CopyFilesCommands]]` in a `.sh` script: each dependency's copy command followed by LF, in order. `ShCopyBlockLines` states its line structure. |
| Scripts.ShCopyBlockLines | src/Microsoft.DotNet.Build.Tasks/GenerateTestExecutionScripts.cs:53-62 | When no dependency contains LF, the `.sh` copy block splits on LF into one `cp -l -f` command per dependency, which exits with the copy's status on failure, in input order, plus the empty piece after the last LF. No dependencies give an empty block. |
| Scripts.ShRunCommand | src/Microsoft.DotNet.Build.Tasks/GenerateTestExecutionScripts.cs:68 | One `.sh` test command with every `CoreRun.exe` replaced by `./corerun`; `ShRunCommandUnchanged` and `ShRunCommandRewrites` state the effect. |
| Scripts.ShRunCommandUnchanged | src/Microsoft.DotNet.Build.Tasks/GenerateTestExecutionScripts.cs:68 | A test command that does not mention `CoreRun.exe` passes through unchanged. |
| Scripts.ShRunCommandRewrites | src/Microsoft.DotNet.Build.Tasks/GenerateTestExecutionScripts.cs:68 | The first `CoreRun.exe` becomes `./corerun`. The text before it is kept and the rest is rewritten the same way. |
| Scripts.ShRunBlock | src/Microsoft.DotNet.Build.Tasks/GenerateTestExecutionScripts.cs:65-70 | The text put in place of `[[TestRunCommand]]` in a `.sh` script: each test command with `CoreRun.exe` rewritten, followed by LF, in order. `ShRunBlockLines` states its line structure. |
| Scripts.ShRunBlockLines | src/Microsoft.DotNet.Build.Tasks/GenerateTestExecutionScripts.cs:65-70 | When no test command contains LF, the `.sh` run block splits on LF into the rewritten commands, one per test command and in order, plus the empty piece after the last LF. |
| Scripts.Substitute | src/Microsoft.DotNet.Build.Tasks/GenerateTestExecutionScripts.cs:63-71 | The two placeholder replacements of both writers: every copy-files token first, then every test-run token in the result. `SubstituteWithoutTokens`, `SubstituteOneOfEach` and `SubstitutionOrder` state what this gives. |
| Scripts.SubstituteWithoutTokens | src/Microsoft.DotNet.Build.Tasks/GenerateTestExecutionScripts.cs:63-71 | A template that contains neither placeholder is left as it is. |
| Scripts.SubstituteOneOfEach | src/Microsoft.DotNet.Build.Tasks/GenerateTestExecutionScripts.cs:93-94 | In a template with one copy token before one run token, the copy block replaces the first and the run block replaces the second. Everything around them is kept. |
| Scripts.SubstitutionOrder | src/Microsoft.DotNet.Build.Tasks/GenerateTestExecutionScripts.cs:63-71 | The copy token is substituted first. A run token brought in by the copy block is therefore replaced too, but a copy token brought in by the run block is not. |
| Scripts.CrLfToLf | src/Microsoft.DotNet.Build.Tasks/GenerateTestExecutionScripts.cs:73 | The clean-up of Windows line ends: one left-to-right replacement of CR LF by LF. `CrLfToLfDropsCr` and `CrLfToLfRemovesCr` state what it removes, and `CrLfToLfSinglePass` that it is a single pass. |
| Scripts.CrLfToLfDropsCr | src/Microsoft.DotNet.Build.Tasks/GenerateTestExecutionScripts.cs:72-73 | When every CR of the text begins a CR LF pair, the clean-up deletes exactly the CRs and keeps every other character in order. |
| Scripts.CrLfToLfRemovesCr | src/Microsoft.DotNet.Build.Tasks/GenerateTestExecutionScripts.cs:72-73 | The clean-up leaves no CR exactly when every CR of the text begins a CR LF pair. A CR not followed by LF always survives. |
| Scripts.ReplaceAllKeepsCrLfPairs | src/Microsoft.DotNet.Build.Tasks/GenerateTestExecutionScripts.cs:63-71 | Replacing a placeholder, which does not start with LF, by a CR-free block keeps every CR of the text at the start of a CR LF pair. |
| Scripts.CrLfToLfSinglePass | src/Microsoft.DotNet.Build.Tasks/GenerateTestExecutionScripts.cs:73 | The CR LF clean-up is one left-to-right pass. `\r\r\n` becomes `\r\n`, and only a second pass gives `\n`. |
| Scripts.ShScript | src/Microsoft.DotNet.Build.Tasks/GenerateTestExecutionScripts.cs:75-80 | The `.sh` script ends with the LF that `WriteLine` adds with `NewLine = "\n"`. |
| Scripts.ShScriptNoCarriageReturn | src/Microsoft.DotNet.Build.Tasks/GenerateTestExecutionScripts.cs:50-80 | If the template, dependencies and commands contain no CR, the `.sh` script contains no CR. |
| Scripts.ShScriptFromCrLfTemplate | src/Microsoft.DotNet.Build.Tasks/GenerateTestExecutionScripts.cs:50-80 | For a template whose CRs all begin CR LF pairs, and CR-free dependencies and commands, the `.sh` script is the substituted text with every CR deleted, then one LF. It contains no CR. |
| Scripts.ShScriptOneOfEach | src/Microsoft.DotNet.Build.Tasks/GenerateTestExecutionScripts.cs:50-80 | For a CR-free template with one of each placeholder, the `.sh` script is the template text with the copy block and the run block in place, then one LF. |
| Scripts.CmdCopyCommand | src/Microsoft.DotNet.Build.Tasks/GenerateTestExecutionScripts.cs:90 | One batch `copyandcheck` line without its newline: the dependency as given, under `%PACKAGE_DIR%`, copied to its file name under `%EXECUTION_DIR%`, jumping to `EOF` on failure. `CmdCopyCommandExample` and `CmdCopyBlockLines` state its text and its place in the block. |
| Scripts.CmdCopyCommandExample | src/Microsoft.DotNet.Build.Tasks/GenerateTestExecutionScripts.cs:90 | The exact batch copy line for `/lib\foo.dll` on Windows: the dependency stays unnormalised and the destination is its file name. |
| Scripts.CmdCopyCommandUnixExample | src/Microsoft.DotNet.Build.Tasks/GenerateTestExecutionScripts.cs:90 | The exact batch copy line for `/lib\foo.dll` on Unix: the source path keeps the dependency as given, and the destination is its Unix file name `lib\foo.dll`. |
| Scripts.CmdCopyBlock | src/Microsoft.DotNet.Build.Tasks/GenerateTestExecutionScripts.cs:86-91 | The text put in place of `[[CopyFilesCommands]]` in a batch script: each dependency's `copyandcheck` line followed by the platform newline that `AppendLine` adds, in order. `CmdCopyBlockLines` states its line structure. |
| Scripts.CmdCopyBlockLines | src/Microsoft.DotNet.Build.Tasks/GenerateTestExecutionScripts.cs:86-91 | When the newline is CR LF or LF and no dependency contains its first character, the batch copy block splits on that newline into one `call :copyandcheck` line per dependency, which jumps to `EOF` on failure, in order, plus the empty piece after the last newline. |
| Scripts.CmdRunBlock | src/Microsoft.DotNet.Build.Tasks/GenerateTestExecutionScripts.cs:94 | The batch run block: the test commands joined with CR LF, unchanged. `CmdRunBlockSplits` shows that splitting on CR LF gives the commands back. |
| Scripts.CmdRunBlockSplits | src/Microsoft.DotNet.Build.Tasks/GenerateTestExecutionScripts.cs:94 | For a non-empty list of commands none of which contains CR, the batch run block splits on CR LF into the commands, unchanged and in order, with no trailing separator. |
| Scripts.CmdRunBlockEmpty | src/Microsoft.DotNet.Build.Tasks/GenerateTestExecutionScripts.cs:94 | No test commands give an empty run block, which splits on CR LF into one empty piece. |
| Scripts.CmdScript | src/Microsoft.DotNet.Build.Tasks/GenerateTestExecutionScripts.cs:96-100 | The batch script ends with the platform newline that `WriteLine` adds. |
| Scripts.CmdScriptOneOfEach | src/Microsoft.DotNet.Build.Tasks/GenerateTestExecutionScripts.cs:84-100 | For a template with one of each placeholder, the batch script is the template text with the copy block and the CR LF-joined commands in place, then one newline. No line endings are changed. |
| TestExecutionScripts.DialectOf | src/Microsoft.DotNet.Build.Tasks/GenerateTestExecutionScripts.cs:34-46 | The switch on the lower-cased extension of the output file name: `.sh` gives the shell writer, `.cmd` and `.bat` the batch writer, anything else no writer. `DialectBySuffix` restates the choice in terms of how the path ends. |
| TestExecutionScripts.DialectBySuffix | src/Microsoft.DotNet.Build.Tasks/GenerateTestExecutionScripts.cs:34-46 | The shell dialect is chosen exactly when the output path ends with `.sh`, ignoring case. The batch dialect is chosen exactly when it ends with `.cmd` or `.bat`. |
| TestExecutionScripts.Execute | src/Microsoft.DotNet.Build.Tasks/GenerateTestExecutionScripts.cs:23-48 | A missing template gives `FileNotFound` whatever else holds, and nothing else does. A failed directory creation gives `DirectoryError` when the template exists, and nothing else does. `NotSupported`, which names the lower-cased extension, is reported exactly when the directory was created and the path ends with none of `.sh`, `.cmd`, `.bat`. A script is written exactly when the template exists, the directory was created and the path ends with one of them: the shell script for `.sh`, the batch script otherwise. |
| TestExecutionScripts.DispatchIgnoresCaseSh | src/Microsoft.DotNet.Build.Tasks/GenerateTestExecutionScripts.cs:34-38 | `out/RunTests.SH` selects the shell dialect. |
| TestExecutionScripts.DispatchIgnoresCaseBat | src/Microsoft.DotNet.Build.Tasks/GenerateTestExecutionScripts.cs:34-42 | `out/RunTests.Bat` selects the batch dialect. |
| TestExecutionScripts.DispatchRejectsPs1 | src/Microsoft.DotNet.Build.Tasks/GenerateTestExecutionScripts.cs:44-45 | `out/RunTests.ps1` selects no dialect, and the reported extension is `.ps1`. |
| TestExecutionScripts.DispatchUsesLastExtension | src/Microsoft.DotNet.Build.Tasks/GenerateTestExecutionScripts.cs:34 | `out/x.sh.txt` selects no dialect, because only the last extension, `.txt`, counts. |
| TestExecutionScripts.DispatchTrailingDot | src/Microsoft.DotNet.Build.Tasks/GenerateTestExecutionScripts.cs:34 | `out/RunTests.sh.` has an empty extension, because `GetExtension` ignores a final dot, so it selects no dialect. |

## Left out

- File system effects are not modelled: `File.Exists`, `File.ReadAllText`, `Directory.CreateDirectory`, `FileStream` and `StreamWriter`. Template existence, template text and directory creation are inputs, and the written text is the result.
- Character encoding is not modelled. `StreamWriter` writes UTF-8; the model stops at characters.
- `Log.LogMessage` calls are left out because they only observe. MSBuild `[Required]` handling is left out too: the model takes non-null arrays of non-null strings.
- Execute: `Directory.CreateDirectory` can throw, for example for an output path with an empty directory part. This is modelled only as the `directoryCreated` input, which yields `DirectoryError`. `Path.GetDirectoryName` itself is not modelled.
- Paths.FileName: models the Unix and Windows separator sets only. On .NET Framework, `Path.GetFileName` also treats the volume separator `:` as a separator anywhere in the path, so `C:foo` and `a:b` give `foo` and `b`. That separator is not modelled, and neither are the invalid-path-character checks of older .NET versions.
- Paths.ToLowerAscii: `ToLowerInvariant` is modelled for ASCII only. No non-ASCII character lower-cases to a character of `.sh`, `.cmd` or `.bat`, so dispatch is unaffected. The extension reported in `NotSupported` does keep non-ASCII capitals: for `x.É` the model reports `.É`, where `ToLowerInvariant` gives `.é`.
- Scripts.NormalizeDep: `StartsWith("/")` is culture-sensitive in .NET but is modelled as an ordinal comparison, so characters that culture rules ignore are not modelled.
- Strings.ReplaceAll: requires a non-empty pattern. `String.Replace` throws on an empty pattern, but every pattern the task passes is a non-empty literal.
- Scripts.ShScriptOneOfEach: covers the one-of-each template shape only. Templates with repeated placeholders are covered by `Strings.ReplaceAllIsJoinSplit` applied to `Scripts.Substitute`.
- The Python Helix runner script is not part of this model. It is I/O plumbing: file copies, uploads, subprocesses and HTTP clients.
- Determinism is not stated separately. Every member is a pure function, so equal inputs give equal scripts.

=== FILE: paths.dfy ===
/**
 The parts of `System.IO.Path` and of invariant-culture lower-casing that
 decide which script dialect an output path asks for. The separator set
 depends on the platform the build runs on, so it is a parameter.
 */
module Paths {

  /**
   The platform the build task runs on: Windows treats both `\` and `/` as
   directory separators and ends lines with CR LF, Unix treats only `/` as a
   separator and ends lines with LF (`Environment.NewLine`).
   */
  datatype Platform = Windows | Unix {
    function Separators(): set<char> {
      if Windows? then {'\\', '/'} else {'/'}
    }

    function NewLine(): string {
      if Windows? then "\r\n" else "\n"
    }
  }

  /** Position of the last character of `s` that belongs to `cs`, or -1. */
  function LastIndexOfAny(s: string, cs: set<char>): (r: int)
    ensures -1 <= r < |s|
    ensures r >= 0 ==> s[r] in cs
    ensures forall j :: r < j < |s| ==> s[j] !in cs
  {
    if |s| == 0 then -1
    else if s[|s| - 1] in cs then |s| - 1
    else LastIndexOfAny(s[..|s| - 1], cs)
  }

  /** No character of `path` after position `i` belongs to `cs`. */
  predicate PlainAfter(path: string, i: int, cs: set<char>) {
    forall j :: 0 <= j < |path| && i < j ==> path[j] !in cs
  }

  /**
   `Path.GetFileName`: the longest suffix of `path` without a separator,
   that is, everything after the last separator (or all of `path`).
   */
  function FileName(path: string, seps: set<char>): (name: string)
    ensures |name| <= |path| && name == path[|path| - |name|..]
    ensures forall i :: 0 <= i < |name| ==> name[i] !in seps
    ensures |name| < |path| ==> path[|path| - |name| - 1] in seps
  {
    path[LastIndexOfAny(path, seps) + 1..]
  }

  /** The file name is what follows a separator that has no separator after it. */
  lemma FileNameAfter(path: string, seps: set<char>, k: int)
    requires 0 <= k < |path| && path[k] in seps && PlainAfter(path, k, seps)
    ensures FileName(path, seps) == path[k + 1..]
  {
  }

  /**
   `Path.GetExtension`: scanning back from the end, the first `.` or
   separator decides. A `.` that is not the last character starts the
   extension; a trailing `.`, a separator or no `.` at all gives "".
   */
  function Extension(path: string, seps: set<char>): (ext: string)
    ensures ext == "" || (2 <= |ext| <= |path| && ext[0] == '.' && ext == path[|path| - |ext|..])
    ensures forall i :: 1 <= i < |ext| ==> ext[i] != '.' && ext[i] !in seps
    ensures forall i :: 0 <= i < |path| - 1 && path[i] == '.' && PlainAfter(path, i, seps + {'.'}) ==>
              ext == path[i..]
  {
    var k := LastIndexOfAny(path, seps + {'.'});
    if k >= 0 && path[k] == '.' && k != |path| - 1 then path[k..] else ""
  }

  /** Invariant-culture lower-casing of one ASCII character. */
  function LowerChar(c: char): char {
    if 'A' <= c <= 'Z' then (c as int + 32) as char else c
  }

  /** `ToLowerInvariant` restricted to ASCII letters. */
  function ToLowerAscii(s: string): string {
    seq(|s|, i requires 0 <= i < |s| => LowerChar(s[i]))
  }

  /**
   Lower-casing keeps the length, turns each ASCII capital into the small
   letter at the same place in the alphabet, leaves no ASCII capital, changes
   nothing else, and a second lower-casing changes nothing.
   */
  lemma ToLowerAsciiLowers(s: string)
    ensures |ToLowerAscii(s)| == |s|
    ensures forall i :: 0 <= i < |s| && 'A' <= s[i] <= 'Z' ==>
              'a' <= ToLowerAscii(s)[i] <= 'z' && ToLowerAscii(s)[i] as int - 'a' as int == s[i] as int - 'A' as int
    ensures forall i :: 0 <= i < |s| ==> !('A' <= ToLowerAscii(s)[i] <= 'Z')
    ensures forall i :: 0 <= i < |s| && !('A' <= s[i] <= 'Z') ==> ToLowerAscii(s)[i] == s[i]
    ensures ToLowerAscii(ToLowerAscii(s)) == ToLowerAscii(s)
  {
  }

  /** `.CMD` lower-cases to `.cmd`: each capital becomes its own small letter. */
  lemma ToLowerAsciiExample(s: string)
    requires s == ".CMD"
    ensures ToLowerAscii(s) == ".cmd"
  {
    assert ToLowerAscii(s)[1] == 'c' && ToLowerAscii(s)[2] == 'm' && ToLowerAscii(s)[3] == 'd';
  }

  /** The lower-cased extension of the file name of `path`. */
  function LowerExtension(path: string, seps: set<char>): string {
    ToLowerAscii(Extension(FileName(path, seps), seps))
  }

  /** `s` ends with the lower-case text `suffix`, ignoring ASCII case. */
  predicate EndsWithIgnoreCase(s: string, suffix: string) {
    |s| >= |suffix| && ToLowerAscii(s[|s| - |suffix|..]) == suffix
  }

  /** An extension literal: a dot followed by at least one lower-case ASCII letter or digit. */
  predicate ExtensionLiteral(suffix: string) {
    && |suffix| >= 2 && suffix[0] == '.'
    && forall i :: 1 <= i < |suffix| ==> 'a' <= suffix[i] <= 'z' || '0' <= suffix[i] <= '9'
  }

  /**
   A path that ends with an extension literal, ignoring case, ends with a
   dot followed by characters that are neither dots nor separators.
   */
  lemma SuffixCharacters(path: string, suffix: string, seps: set<char>)
    requires ExtensionLiteral(suffix) && EndsWithIgnoreCase(path, suffix)
    requires seps <= {'/', '\\'}
    ensures path[|path| - |suffix|] == '.'
    ensures PlainAfter(path, |path| - |suffix|, seps + {'.'})
  {
    var n := |suffix|;
    var tail := path[|path| - n..];
    assert LowerChar(tail[0]) == suffix[0];
    forall j | 0 <= j < |path| && |path| - n < j ensures path[j] !in seps + {'.'} {
      assert LowerChar(tail[j - (|path| - n)]) == suffix[j - (|path| - n)];
    }
  }

  /** A path ending with an extension literal has that literal, in its own case, as its extension. */
  lemma ExtensionOfSuffixed(path: string, suffix: string, seps: set<char>)
    requires ExtensionLiteral(suffix) && EndsWithIgnoreCase(path, suffix)
    requires seps <= {'/', '\\'}
    ensures Extension(FileName(path, seps), seps) == path[|path| - |suffix|..]
  {
    var n := |suffix|;
    var name := FileName(path, seps);
    SuffixCharacters(path, suffix, seps);
    assert |name| >= n;
    var i := |name| - n;
    assert name[i..] == path[|path| - n..];
    assert name[i] == '.';
    assert PlainAfter(name, i, seps + {'.'}) by {
      forall j | 0 <= j < |name| && i < j ensures name[j] !in seps + {'.'} {
        assert name[j] == path[|path| - |name| + j];
      }
    }
  }

  /** A suffix of a suffix of `path` is a suffix of `path`. */
  lemma SuffixOfSuffix(path: string, name: string, ext: string)
    requires |name| <= |path| && name == path[|path| - |name|..]
    requires |ext| <= |name| && ext == name[|name| - |ext|..]
    ensures ext == path[|path| - |ext|..]
  {
    assert path[|path| - |name|..][|name| - |ext|..] == path[|path| - |ext|..];
  }

  /** A path ends, ignoring case, with the lower-cased form of any of its suffixes. */
  lemma EndsWithLowered(path: string, ext: string, suffix: string)
    requires |ext| <= |path| && ext == path[|path| - |ext|..] && ToLowerAscii(ext) == suffix
    ensures EndsWithIgnoreCase(path, suffix)
  {
  }

  /** A lower-cased extension is a suffix of the path, ignoring case. */
  lemma SuffixOfLowerExtension(path: string, seps: set<char>)
    ensures EndsWithIgnoreCase(path, LowerExtension(path, seps))
  {
    var name := FileName(path, seps);
    var ext := Extension(name, seps);
    assert |ext| <= |name| && ext == name[|name| - |ext|..];
    SuffixOfSuffix(path, name, ext);
    EndsWithLowered(path, ext, LowerExtension(path, seps));
  }

  /**
   The lower-cased extension of the file name of `path` is `suffix` exactly
   when `path` itself ends with `suffix`, ignoring case.
   */
  lemma ExtensionIsSuffix(path: string, seps: set<char>, suffix: string)
    requires ExtensionLiteral(suffix)
    requires seps <= {'/', '\\'}
    ensures LowerExtension(path, seps) == suffix <==> EndsWithIgnoreCase(path, suffix)
  {
    if EndsWithIgnoreCase(path, suffix) {
      ExtensionOfSuffixed(path, suffix, seps);
    } else if LowerExtension(path, seps) == suffix {
      SuffixOfLowerExtension(path, seps);
    }
  }
}

=== FILE: scripts.dfy ===
/**
 The two script writers of the `GenerateTestExecutionScripts` build task.
 A template is expanded by literal substitution of two placeholder tokens:
 `[[CopyFilesCommands]]` becomes one copy command per test dependency and
 `[[TestRunCommand]]` becomes the test commands. The POSIX shell writer
 (`.sh`) normalises dependency paths, rewrites `CoreRun.exe`, replaces each
 CR LF with LF in one left-to-right pass and ends the text with one LF; the
 Windows batch writer (`.cmd`, `.bat`) does none of that.

 The example lemmas take their literal input as a parameter fixed by a
 `requires`: with the literal written into the call, the verifier unfolds
 every function on it eagerly and runs out of resources.
 */
module Scripts {
  import opened Strings
  import opened Paths

  const CopyToken: string := "[[CopyFilesCommands]]"
  const RunToken: string := "[[TestRunCommand]]"

  /** Neither placeholder can overlap an occurrence of itself. */
  lemma TokensBorderFree()
    ensures BorderFree(CopyToken) && BorderFree(RunToken)
  {
    BracketedBorderFree(CopyToken);
    BracketedBorderFree(RunToken);
  }

  /** Every copy-files token is replaced first, then every test-run token. */
  function Substitute(template: string, copyBlock: string, runBlock: string): string {
    ReplaceAll(ReplaceAll(template, CopyToken, copyBlock), RunToken, runBlock)
  }

  /** A template without placeholders is left as it is. */
  lemma SubstituteWithoutTokens(template: string, copyBlock: string, runBlock: string)
    requires !Contains(template, CopyToken) && !Contains(template, RunToken)
    ensures Substitute(template, copyBlock, runBlock) == template
  {
    ReplaceAllAbsent(template, CopyToken, copyBlock);
    ReplaceAllAbsent(template, RunToken, runBlock);
  }

  /**
   A template with one copy-files token followed by one test-run token gets
   the copy block in place of the first and the run block in place of the
   second, and everything around them is kept. The conditions say that the
   tokens occur nowhere else, also not in the text after the copy block is
   put in (the run token is substituted after the copy block is in place).
   */
  lemma SubstituteOneOfEach(a: string, b: string, c: string, copyBlock: string, runBlock: string)
    requires !Contains(a, CopyToken) && !Contains(b + RunToken + c, CopyToken)
    requires !Contains(a + copyBlock + b, RunToken) && !Contains(c, RunToken)
    ensures Substitute(a + CopyToken + b + RunToken + c, copyBlock, runBlock) == a + copyBlock + b + runBlock + c
  {
    TokensBorderFree();
    var rest := b + RunToken + c;
    var x := a + copyBlock + b;
    assert a + CopyToken + b + RunToken + c == a + CopyToken + rest;
    var once := ReplaceAll(a + CopyToken + rest, CopyToken, copyBlock);
    ReplaceSingle(a, CopyToken, rest, copyBlock);
    assert once == x + RunToken + c;
    ReplaceSingle(x, RunToken, c, runBlock);
  }

  /** No element of `ls` contains the character `ch`. */
  predicate NoneContains(ls: seq<string>, ch: char) {
    forall i :: 0 <= i < |ls| ==> ch !in ls[i]
  }

  /** Terminated lines avoid a character that neither the lines nor the terminator contain. */
  lemma {:induction false} LinesAvoid(ls: seq<string>, term: string, ch: char)
    requires NoneContains(ls, ch) && ch !in term
    ensures ch !in Lines(ls, term)
    decreases |ls|
  {
    if |ls| > 0 {
      assert ch !in ls[0];
      LinesAvoid(ls[1..], term, ch);
    }
  }

  /** A file name avoids every character its path avoids. */
  lemma FileNameAvoids(path: string, seps: set<char>, ch: char)
    requires ch !in path
    ensures ch !in FileName(path, seps)
  {
    var name := FileName(path, seps);
    forall i | 0 <= i < |name| ensures name[i] != ch {
      assert name[i] == path[|path| - |name| + i];
    }
  }

  // ---------------------------------------------------------------------
  // POSIX shell dialect
  // ---------------------------------------------------------------------

  /** The character a dependency path character becomes in the `.sh` dialect. */
  function Slashed(c: char): char {
    if c == '\\' then '/' else c
  }

  /**
   The package-relative path of a dependency as the `.sh` writer uses it:
   every `\` becomes `/`, then at most one leading `/` is dropped. Nothing
   else changes, and no `\` is left.
   */
  function NormalizeDep(dep: string): (r: string)
    ensures '\\' !in r
    ensures |dep| > 0 && (dep[0] == '/' || dep[0] == '\\') ==>
              |r| == |dep| - 1 && forall i :: 0 <= i < |r| ==> r[i] == Slashed(dep[i + 1])
    ensures !(|dep| > 0 && (dep[0] == '/' || dep[0] == '\\')) ==>
              |r| == |dep| && forall i :: 0 <= i < |r| ==> r[i] == Slashed(dep[i])
  {
    var t := ReplaceChar(dep, '\\', '/');
    if |t| > 0 && t[0] == '/' then t[1..] else t
  }

  /** Normalising avoids every character other than `/` that the dependency avoids. */
  lemma NormalizeDepAvoids(dep: string, ch: char)
    requires ch !in dep && ch != '/'
    ensures ch !in NormalizeDep(dep)
  {
    var r := NormalizeDep(dep);
    forall i | 0 <= i < |r| ensures r[i] != ch {
      if |dep| > 0 && (dep[0] == '/' || dep[0] == '\\') {
        assert r[i] == Slashed(dep[i + 1]);
      } else {
        assert r[i] == Slashed(dep[i]);
      }
    }
  }

  /** A leading slash is dropped and backslashes become slashes. */
  lemma NormalizeDepExample(dep: string)
    requires dep == "/lib\\foo.dll"
    ensures NormalizeDep(dep) == "lib/foo.dll"
  {
    var r := NormalizeDep(dep);
    assert dep[0] == '/' && |dep| == 12;
    assert |r| == 11;
    assert r[0] == 'l' && r[1] == 'i' && r[2] == 'b' && r[3] == '/';
    assert r[4] == 'f' && r[5] == 'o' && r[6] == 'o' && r[7] == '.';
    assert r[8] == 'd' && r[9] == 'l' && r[10] == 'l';
    NormalizedLibFoo(r);
  }

  // The literal comparison is its own proof so that it does not share a
  // proof obligation with the unfolding of `NormalizeDep` above.
  lemma NormalizedLibFoo(r: string)
    requires |r| == 11
    requires r[0] == 'l' && r[1] == 'i' && r[2] == 'b' && r[3] == '/'
    requires r[4] == 'f' && r[5] == 'o' && r[6] == 'o' && r[7] == '.'
    requires r[8] == 'd' && r[9] == 'l' && r[10] == 'l'
    ensures r == "lib/foo.dll"
  { }

  /** Only one leading slash is dropped, so normalising twice differs from normalising once. */
  lemma NormalizeDepOneSlash()
    ensures NormalizeDep("//x") == "/x"
    ensures NormalizeDep(NormalizeDep("//x")) == "x"
  {
    var r := NormalizeDep("//x");
    assert |r| == 2;
    assert r[0] == '/' && r[1] == 'x';
    assert r == "/x";
    var r' := NormalizeDep("/x");
    assert |r'| == 1 && r'[0] == 'x';
  }

  /** The destination name of a dependency depends on the platform's separators. */
  lemma FileNameExamples()
    ensures FileName("/lib\\foo.dll", Windows.Separators()) == "foo.dll"
    ensures FileName("/lib\\foo.dll", Unix.Separators()) == "lib\\foo.dll"
  {
    var dep := "/lib\\foo.dll";
    FileNameAfter(dep, Windows.Separators(), 4);
    FileNameAfter(dep, Unix.Separators(), 0);
  }

  /** The copy command the `.sh` writer emits for one dependency, without its line feed. */
  function ShCopyCommand(dep: string, seps: set<char>): string {
    "cp -l -f \"$PACKAGE_DIR/" + NormalizeDep(dep) + "\" \"$EXECUTION_DIR/" + FileName(dep, seps) + "\" || exit $?"
  }

  /** The `.sh` copy line for `/lib\foo.dll` on Windows. */
  lemma ShCopyCommandExample(dep: string)
    requires dep == "/lib\\foo.dll"
    ensures ShCopyCommand(dep, Windows.Separators())
            == "cp -l -f \"$PACKAGE_DIR/lib/foo.dll\" \"$EXECUTION_DIR/foo.dll\" || exit $?"
  {
    NormalizeDepExample(dep);
    FileNameAfter(dep, Windows.Separators(), 4);
    assert dep[5..] == "foo.dll";
    ShCopyLiteral("lib/foo.dll", "foo.dll");
  }

  /**
   The literal pieces of the example `.sh` copy line, joined one at a time.
   The verifier does not find the equality of the two long literals without
   the intermediate joins.
   */
  lemma ShCopyLiteral(n: string, f: string)
    requires n == "lib/foo.dll" && f == "foo.dll"
    ensures "cp -l -f \"$PACKAGE_DIR/" + n + "\" \"$EXECUTION_DIR/" + f + "\" || exit $?"
            == "cp -l -f \"$PACKAGE_DIR/lib/foo.dll\" \"$EXECUTION_DIR/foo.dll\" || exit $?"
  {
    assert "cp -l -f \"$PACKAGE_DIR/" + n == "cp -l -f \"$PACKAGE_DIR/lib/foo.dll";
    assert "cp -l -f \"$PACKAGE_DIR/lib/foo.dll" + "\" \"$EXECUTION_DIR/"
        == "cp -l -f \"$PACKAGE_DIR/lib/foo.dll\" \"$EXECUTION_DIR/";
    assert "cp -l -f \"$PACKAGE_DIR/lib/foo.dll\" \"$EXECUTION_DIR/" + f
        == "cp -l -f \"$PACKAGE_DIR/lib/foo.dll\" \"$EXECUTION_DIR/foo.dll";
    assert "cp -l -f \"$PACKAGE_DIR/lib/foo.dll\" \"$EXECUTION_DIR/foo.dll" + "\" || exit $?"
        == "cp -l -f \"$PACKAGE_DIR/lib/foo.dll\" \"$EXECUTION_DIR/foo.dll\" || exit $?";
  }

  /**
   The `.sh` copy line for `/lib\foo.dll` on Unix: the source path is
   normalised, but the destination name is taken from the dependency as
   given, so its backslash stays.
   */
  lemma ShCopyCommandUnixExample(dep: string)
    requires dep == "/lib\\foo.dll"
    ensures ShCopyCommand(dep, Unix.Separators())
            == "cp -l -f \"$PACKAGE_DIR/lib/foo.dll\" \"$EXECUTION_DIR/lib\\foo.dll\" || exit $?"
  {
    NormalizeDepExample(dep);
    FileNameAfter(dep, Unix.Separators(), 0);
    assert dep[1..] == "lib\\foo.dll";
    ShCopyUnixLiteral("lib/foo.dll", "lib\\foo.dll");
  }

  /**
   The literal pieces of the Unix example `.sh` copy line, joined one at a
   time. Each join is a lemma of its own, because the verifier needs a
   separate effort for each comparison of long literals.
   */
  lemma ShCopyUnixLiteral(n: string, f: string)
    requires n == "lib/foo.dll" && f == "lib\\foo.dll"
    ensures "cp -l -f \"$PACKAGE_DIR/" + n + "\" \"$EXECUTION_DIR/" + f + "\" || exit $?"
            == "cp -l -f \"$PACKAGE_DIR/lib/foo.dll\" \"$EXECUTION_DIR/lib\\foo.dll\" || exit $?"
  {
    ShCopyUnixSource(n);
    ShCopyUnixMiddle();
    ShCopyUnixTarget(f);
    ShCopyUnixEnd();
  }

  // The four joins of the Unix example line, one lemma each. They state no
  // property of the model: they exist so that the verifier compares each pair
  // of long literals in a proof of its own.

  lemma ShCopyUnixSource(n: string)
    requires n == "lib/foo.dll"
    ensures "cp -l -f \"$PACKAGE_DIR/" + n == "cp -l -f \"$PACKAGE_DIR/lib/foo.dll"
  {
  }

  lemma ShCopyUnixMiddle()
    ensures "cp -l -f \"$PACKAGE_DIR/lib/foo.dll" + "\" \"$EXECUTION_DIR/"
            == "cp -l -f \"$PACKAGE_DIR/lib/foo.dll\" \"$EXECUTION_DIR/"
  {
  }

  lemma ShCopyUnixTarget(f: string)
    requires f == "lib\\foo.dll"
    ensures "cp -l -f \"$PACKAGE_DIR/lib/foo.dll\" \"$EXECUTION_DIR/" + f
            == "cp -l -f \"$PACKAGE_DIR/lib/foo.dll\" \"$EXECUTION_DIR/lib\\foo.dll"
  {
  }

  lemma ShCopyUnixEnd()
    ensures "cp -l -f \"$PACKAGE_DIR/lib/foo.dll\" \"$EXECUTION_DIR/lib\\foo.dll" + "\" || exit $?"
            == "cp -l -f \"$PACKAGE_DIR/lib/foo.dll\" \"$EXECUTION_DIR/lib\\foo.dll\" || exit $?"
  {
  }

  /** The `.sh` copy command of each dependency, in order. */
  function ShCopyCommands(deps: seq<string>, seps: set<char>): seq<string> {
    seq(|deps|, i requires 0 <= i < |deps| => ShCopyCommand(deps[i], seps))
  }

  /** The text put in place of `[[CopyFilesCommands]]` in a `.sh` script. */
  function ShCopyBlock(deps: seq<string>, seps: set<char>): string {
    Lines(ShCopyCommands(deps, seps), "\n")
  }

  /** A copy command contains a line break character only if its dependency does. */
  lemma ShCopyCommandAvoids(dep: string, seps: set<char>, ch: char)
    requires ch == '\n' || ch == '\r'
    requires ch !in dep
    ensures ch !in ShCopyCommand(dep, seps)
  {
    NormalizeDepAvoids(dep, ch);
    FileNameAvoids(dep, seps, ch);
    ShCopyPiecesPlain(ch);
    AvoidsPieces("cp -l -f \"$PACKAGE_DIR/", NormalizeDep(dep), "\" \"$EXECUTION_DIR/", FileName(dep, seps), "\" || exit $?", ch);
  }

  /** The fixed pieces of a `.sh` copy line hold no line break character. */
  lemma ShCopyPiecesPlain(ch: char)
    requires ch == '\n' || ch == '\r'
    ensures ch !in "cp -l -f \"$PACKAGE_DIR/" && ch !in "\" \"$EXECUTION_DIR/" && ch !in "\" || exit $?"
  {
    LineBreakFree("cp -l -f \"$PACKAGE_DIR/", ch);
    LineBreakFree("\" \"$EXECUTION_DIR/", ch);
    LineBreakFree("\" || exit $?", ch);
  }

  /** A string of printable ASCII characters holds no line break character. */
  lemma LineBreakFree(s: string, ch: char)
    requires ch == '\n' || ch == '\r'
    requires forall i :: 0 <= i < |s| ==> ' ' <= s[i] <= '~'
    ensures ch !in s
  {
  }

  /** A character none of five pieces holds is not in their concatenation. */
  lemma AvoidsPieces(a: string, b: string, c: string, d: string, e: string, ch: char)
    requires ch !in a && ch !in b && ch !in c && ch !in d && ch !in e
    ensures ch !in a + b + c + d + e
  {
  }

  /**
   The `.sh` copy block has exactly one LF-terminated line per dependency,
   in input order, each the copy command for that dependency; no
   dependencies give an empty block.
   */
  lemma ShCopyBlockLines(deps: seq<string>, seps: set<char>)
    requires NoneContains(deps, '\n')
    ensures Split(ShCopyBlock(deps, seps), "\n") == ShCopyCommands(deps, seps) + [""]
    ensures |deps| == 0 ==> ShCopyBlock(deps, seps) == ""
  {
    var cmds := ShCopyCommands(deps, seps);
    forall i | 0 <= i < |cmds| ensures "\n"[0] !in cmds[i] {
      ShCopyCommandAvoids(deps[i], seps, '\n');
    }
    LinesSplit(cmds, "\n");
  }

  /** The `.sh` form of a test command: every `CoreRun.exe` becomes `./corerun`. */
  function ShRunCommand(cmd: string): string {
    ReplaceAll(cmd, "CoreRun.exe", "./corerun")
  }

  /** A command that does not mention `CoreRun.exe` passes through unchanged. */
  lemma ShRunCommandUnchanged(cmd: string)
    requires !Contains(cmd, "CoreRun.exe")
    ensures ShRunCommand(cmd) == cmd
  {
    ReplaceAllAbsent(cmd, "CoreRun.exe", "./corerun");
  }

  /**
   The first `CoreRun.exe` of a command is rewritten to `./corerun`, the text
   before it is kept and the rest of the command is rewritten in turn.
   */
  lemma ShRunCommandRewrites(before: string, after: string)
    requires !Contains(before, "CoreRun.exe")
    ensures ShRunCommand(before + "CoreRun.exe" + after) == before + "./corerun" + ShRunCommand(after)
  {
    UniqueFirstBorderFree("CoreRun.exe");
    FirstAfterPlain(before, "CoreRun.exe", after);
    ReplaceAllAt(before, "CoreRun.exe", after, "./corerun");
  }

  /** The `.sh` form of each test command, in order. */
  function ShRunCommands(cmds: seq<string>): seq<string> {
    seq(|cmds|, i requires 0 <= i < |cmds| => ShRunCommand(cmds[i]))
  }

  /** The text put in place of `[[TestRunCommand]]` in a `.sh` script. */
  function ShRunBlock(cmds: seq<string>): string {
    Lines(ShRunCommands(cmds), "\n")
  }

  /** Rewriting `CoreRun.exe` introduces no line break characters. */
  lemma ShRunCommandAvoids(cmd: string, ch: char)
    requires ch == '\n' || ch == '\r'
    requires ch !in cmd
    ensures ch !in ShRunCommand(cmd)
  {
    ReplaceAllChars(cmd, "CoreRun.exe", "./corerun", ch);
  }

  /**
   The `.sh` run block has exactly one LF-terminated line per test command,
   in order, each the command with `CoreRun.exe` rewritten.
   */
  lemma ShRunBlockLines(cmds: seq<string>)
    requires NoneContains(cmds, '\n')
    ensures Split(ShRunBlock(cmds), "\n") == ShRunCommands(cmds) + [""]
  {
    var lines := ShRunCommands(cmds);
    forall i | 0 <= i < |lines| ensures "\n"[0] !in lines[i] {
      ShRunCommandAvoids(cmds[i], '\n');
    }
    LinesSplit(lines, "\n");
  }

  /** The final clean-up of the `.sh` writer: every CR LF becomes LF, in one left-to-right pass. */
  function CrLfToLf(s: string): string {
    ReplaceAll(s, "\r\n", "\n")
  }

  /** One pass does not remove every CR LF: a CR before a CR LF survives as a new CR LF. */
  lemma CrLfToLfSinglePass()
    ensures CrLfToLf("\r\r\n") == "\r\n"
    ensures CrLfToLf(CrLfToLf("\r\r\n")) == "\n"
  {
    assert "\r\r\n"[..2][1] != "\r\n"[1];
    assert "\r\r\n"[1..] == "\r\n";
    assert "\r\n"[..2] == "\r\n";
  }

  /** Every CR of `s` begins a CR LF pair: the text has Windows line ends and no stray CR. */
  predicate CrOnlyInCrLf(s: string) {
    forall i :: 0 <= i < |s| && s[i] == '\r' ==> i + 1 < |s| && s[i + 1] == '\n'
  }

  /** `s` with every CR deleted and every other character kept in order. */
  function DropCr(s: string): (r: string)
    ensures '\r' !in r
  {
    if |s| == 0 then ""
    else (if s[0] == '\r' then "" else [s[0]]) + DropCr(s[1..])
  }

  /** A tail of a text with only CR LF pairs has only CR LF pairs. */
  lemma CrOnlyInCrLfDrop(s: string, n: int)
    requires CrOnlyInCrLf(s) && 0 <= n <= |s|
    ensures CrOnlyInCrLf(s[n..])
  {
    forall i | 0 <= i < |s| - n && s[n..][i] == '\r' ensures i + 1 < |s| - n && s[n..][i + 1] == '\n' {
      assert s[n + i] == '\r';
    }
  }

  /** On a text whose CRs all begin CR LF pairs, the scan for CR LF deletes exactly the CRs. */
  lemma {:induction false} ScanDropsCr(s: string)
    requires CrOnlyInCrLf(s)
    ensures ReplaceScan(s, "\r\n", "\n") == DropCr(s)
    decreases |s|
  {
    if |s| == 1 {
      assert s[0] != '\r';
      assert DropCr(s) == [s[0]] + DropCr(s[1..]);
    } else if |s| >= 2 && s[..2] == "\r\n" {
      assert s[0] == '\r' && s[1] == '\n';
      CrOnlyInCrLfDrop(s, 2);
      ScanDropsCr(s[2..]);
      assert s[1..][1..] == s[2..];
      assert DropCr(s[1..]) == "\n" + DropCr(s[2..]);
    } else if |s| >= 2 {
      assert s[0] != '\r' by {
        assert s[..2][0] == s[0] && s[..2][1] == s[1];
      }
      CrOnlyInCrLfDrop(s, 1);
      ScanDropsCr(s[1..]);
    }
  }

  /** A CR that does not begin a CR LF pair survives the scan for CR LF. */
  lemma {:induction false} ScanKeepsStrayCr(s: string, i: int)
    requires 0 <= i < |s| && s[i] == '\r' && !(i + 1 < |s| && s[i + 1] == '\n')
    ensures '\r' in ReplaceScan(s, "\r\n", "\n")
    decreases |s|
  {
    if |s| < 2 {
      assert ReplaceScan(s, "\r\n", "\n") == s;
    } else if s[..2] == "\r\n" {
      assert s[0] == '\r' && s[1] == '\n';
      assert i >= 2;
      assert s[2..][i - 2] == '\r';
      ScanKeepsStrayCr(s[2..], i - 2);
    } else if i == 0 {
      assert ReplaceScan(s, "\r\n", "\n")[0] == '\r';
    } else {
      assert s[1..][i - 1] == '\r';
      ScanKeepsStrayCr(s[1..], i - 1);
    }
  }

  /**
   On a text whose CRs all begin CR LF pairs, the clean-up deletes exactly
   the CRs and keeps every other character in order.
   */
  lemma CrLfToLfDropsCr(s: string)
    requires CrOnlyInCrLf(s)
    ensures CrLfToLf(s) == DropCr(s)
  {
    ReplaceAllIsScan(s, "\r\n", "\n");
    ScanDropsCr(s);
  }

  /** The clean-up leaves no CR exactly when every CR of the text begins a CR LF pair. */
  lemma CrLfToLfRemovesCr(s: string)
    ensures '\r' !in CrLfToLf(s) <==> CrOnlyInCrLf(s)
  {
    if CrOnlyInCrLf(s) {
      CrLfToLfDropsCr(s);
    } else {
      var i :| 0 <= i < |s| && s[i] == '\r' && !(i + 1 < |s| && s[i + 1] == '\n');
      ReplaceAllIsScan(s, "\r\n", "\n");
      ScanKeepsStrayCr(s, i);
    }
  }

  /** A CR-free text in front of a text with only CR LF pairs gives a text with only CR LF pairs. */
  lemma CrOnlyInCrLfAppend(a: string, b: string)
    requires '\r' !in a && CrOnlyInCrLf(b)
    ensures CrOnlyInCrLf(a + b)
  {
    forall i | 0 <= i < |a + b| && (a + b)[i] == '\r' ensures i + 1 < |a + b| && (a + b)[i + 1] == '\n' {
      if i >= |a| {
        assert b[i - |a|] == '\r';
      }
    }
  }

  /** One character in front of a text with only CR LF pairs keeps that property if a CR is followed by LF. */
  lemma CrOnlyInCrLfCons(c: char, b: string)
    requires CrOnlyInCrLf(b) && (c == '\r' ==> |b| > 0 && b[0] == '\n')
    ensures CrOnlyInCrLf([c] + b)
  {
    forall i | 1 <= i < |b| + 1 && ([c] + b)[i] == '\r' ensures i + 1 < |b| + 1 && ([c] + b)[i + 1] == '\n' {
      assert b[i - 1] == '\r';
    }
  }

  /** The scan copies a first character that cannot start the pattern. */
  lemma ScanFirstChar(s: string, pat: string, rep: string)
    requires |pat| > 0 && |s| > 0 && s[0] != pat[0]
    ensures |ReplaceScan(s, pat, rep)| > 0 && ReplaceScan(s, pat, rep)[0] == s[0]
  {
    assert !OccursAt(s, pat, 0) by {
      if |pat| <= |s| {
        assert s[..|pat|][0] == s[0];
      }
    }
    ScanSkip(s, pat, rep);
  }

  /**
   Replacing a pattern that does not start with LF by a CR-free text keeps
   every CR at the start of a CR LF pair.
   */
  lemma {:induction false} ScanKeepsCrLfPairs(s: string, pat: string, rep: string)
    requires |pat| > 0 && pat[0] != '\n' && '\r' !in rep && CrOnlyInCrLf(s)
    ensures CrOnlyInCrLf(ReplaceScan(s, pat, rep))
    decreases |s|
  {
    if |s| >= |pat| && s[..|pat|] == pat {
      CrOnlyInCrLfDrop(s, |pat|);
      ScanKeepsCrLfPairs(s[|pat|..], pat, rep);
      CrOnlyInCrLfAppend(rep, ReplaceScan(s[|pat|..], pat, rep));
    } else if |s| >= |pat| {
      var t := s[1..];
      CrOnlyInCrLfDrop(s, 1);
      ScanKeepsCrLfPairs(t, pat, rep);
      if s[0] == '\r' {
        assert t[0] == '\n';
        ScanFirstChar(t, pat, rep);
      }
      CrOnlyInCrLfCons(s[0], ReplaceScan(t, pat, rep));
    }
  }

  /** `ReplaceAll` with a pattern not starting with LF and a CR-free replacement keeps CR LF pairs intact. */
  lemma ReplaceAllKeepsCrLfPairs(s: string, pat: string, rep: string)
    requires |pat| > 0 && pat[0] != '\n' && '\r' !in rep && CrOnlyInCrLf(s)
    ensures CrOnlyInCrLf(ReplaceAll(s, pat, rep))
  {
    ReplaceAllIsScan(s, pat, rep);
    ScanKeepsCrLfPairs(s, pat, rep);
  }

  /** The `.sh` copy and run blocks contain no CR when the dependencies and commands do not. */
  lemma ShBlocksNoCarriageReturn(deps: seq<string>, cmds: seq<string>, seps: set<char>)
    requires NoneContains(deps, '\r') && NoneContains(cmds, '\r')
    ensures '\r' !in ShCopyBlock(deps, seps) && '\r' !in ShRunBlock(cmds)
  {
    forall i | 0 <= i < |deps| ensures '\r' !in ShCopyCommands(deps, seps)[i] {
      ShCopyCommandAvoids(deps[i], seps, '\r');
    }
    LinesAvoid(ShCopyCommands(deps, seps), "\n", '\r');
    forall i | 0 <= i < |cmds| ensures '\r' !in ShRunCommands(cmds)[i] {
      ShRunCommandAvoids(cmds[i], '\r');
    }
    LinesAvoid(ShRunCommands(cmds), "\n", '\r');
  }

  /**
   The `.sh` script: both placeholders substituted, CR LF turned into LF,
   then one line feed appended by `WriteLine` (the writer's newline is LF).
   */
  function ShScript(template: string, deps: seq<string>, cmds: seq<string>, seps: set<char>): (script: string)
    ensures |script| > 0 && script[|script| - 1] == '\n'
  {
    CrLfToLf(Substitute(template, ShCopyBlock(deps, seps), ShRunBlock(cmds))) + "\n"
  }

  /** A `.sh` script contains no CR when neither the template, the dependencies nor the commands do. */
  lemma ShScriptNoCarriageReturn(template: string, deps: seq<string>, cmds: seq<string>, seps: set<char>)
    requires '\r' !in template && NoneContains(deps, '\r') && NoneContains(cmds, '\r')
    ensures '\r' !in ShScript(template, deps, cmds, seps)
  {
    var copyBlock := ShCopyBlock(deps, seps);
    var runBlock := ShRunBlock(cmds);
    ShBlocksNoCarriageReturn(deps, cmds, seps);
    var once := ReplaceAll(template, CopyToken, copyBlock);
    ReplaceAllChars(template, CopyToken, copyBlock, '\r');
    var twice := ReplaceAll(once, RunToken, runBlock);
    ReplaceAllChars(once, RunToken, runBlock, '\r');
    ReplaceAllChars(twice, "\r\n", "\n", '\r');
  }

  /**
   A `.sh` template with Windows line ends, whose CRs all begin CR LF pairs,
   gives the substituted text with every CR deleted, then one LF: the script
   has Unix line ends throughout when the dependencies and commands hold no CR.
   */
  lemma ShScriptFromCrLfTemplate(template: string, deps: seq<string>, cmds: seq<string>, seps: set<char>)
    requires CrOnlyInCrLf(template) && NoneContains(deps, '\r') && NoneContains(cmds, '\r')
    ensures ShScript(template, deps, cmds, seps)
            == DropCr(Substitute(template, ShCopyBlock(deps, seps), ShRunBlock(cmds))) + "\n"
    ensures '\r' !in ShScript(template, deps, cmds, seps)
  {
    var copyBlock := ShCopyBlock(deps, seps);
    var runBlock := ShRunBlock(cmds);
    ShBlocksNoCarriageReturn(deps, cmds, seps);
    var once := ReplaceAll(template, CopyToken, copyBlock);
    ReplaceAllKeepsCrLfPairs(template, CopyToken, copyBlock);
    var twice := ReplaceAll(once, RunToken, runBlock);
    ReplaceAllKeepsCrLfPairs(once, RunToken, runBlock);
    CrLfToLfDropsCr(twice);
  }

  /**
   Expanding a `.sh` template with one of each placeholder and no CR gives
   the text before the copy token, the copy block, the text between the
   tokens, the run block and the text after the run token, then one LF.
   */
  lemma ShScriptOneOfEach(a: string, b: string, c: string, deps: seq<string>, cmds: seq<string>, seps: set<char>)
    requires !Contains(a, CopyToken) && !Contains(b + RunToken + c, CopyToken)
    requires !Contains(a + ShCopyBlock(deps, seps) + b, RunToken) && !Contains(c, RunToken)
    requires '\r' !in a + b + c && NoneContains(deps, '\r') && NoneContains(cmds, '\r')
    ensures ShScript(a + CopyToken + b + RunToken + c, deps, cmds, seps)
            == a + ShCopyBlock(deps, seps) + b + ShRunBlock(cmds) + c + "\n"
  {
    var copyBlock := ShCopyBlock(deps, seps);
    var runBlock := ShRunBlock(cmds);
    SubstituteOneOfEach(a, b, c, copyBlock, runBlock);
    var body := a + copyBlock + b + runBlock + c;
    ShBlocksNoCarriageReturn(deps, cmds, seps);
    assert '\r' !in body;
    AbsentFirstChar(body, "\r\n");
    ReplaceAllAbsent(body, "\r\n", "\n");
  }

  // ---------------------------------------------------------------------
  // Windows batch dialect
  // ---------------------------------------------------------------------

  /** The `copyandcheck` call the `.cmd` writer emits for one dependency, without its newline. */
  function CmdCopyCommand(dep: string, seps: set<char>): string {
    "call :copyandcheck \"%PACKAGE_DIR%\\" + dep + "\" %EXECUTION_DIR%\\" + FileName(dep, seps) + " || GOTO EOF"
  }

  /** The batch copy line keeps the dependency as given, backslashes and leading slash included. */
  lemma CmdCopyCommandExample(dep: string)
    requires dep == "/lib\\foo.dll"
    ensures CmdCopyCommand(dep, Windows.Separators())
            == "call :copyandcheck \"%PACKAGE_DIR%\\/lib\\foo.dll\" %EXECUTION_DIR%\\foo.dll || GOTO EOF"
  {
    FileNameAfter(dep, Windows.Separators(), 4);
    assert dep[5..] == "foo.dll";
    CmdCopyLiteral(dep, "foo.dll");
  }

  /**
   The batch copy line for `/lib\\foo.dll` on Unix: the dependency is kept as
   given in the source path and its file name, backslash included, is the
   destination.
   */
  lemma CmdCopyCommandUnixExample(dep: string)
    requires dep == "/lib\\foo.dll"
    ensures CmdCopyCommand(dep, Unix.Separators())
            == "call :copyandcheck \"%PACKAGE_DIR%\\/lib\\foo.dll\" %EXECUTION_DIR%\\lib\\foo.dll || GOTO EOF"
  {
    FileNameAfter(dep, Unix.Separators(), 0);
    assert dep[1..] == "lib\\foo.dll";
    CmdCopyUnixLiteral(dep, "lib\\foo.dll");
  }

  /** The literal pieces of the Unix example batch copy line, joined one lemma at a time. */
  lemma CmdCopyUnixLiteral(d: string, f: string)
    requires d == "/lib\\foo.dll" && f == "lib\\foo.dll"
    ensures "call :copyandcheck \"%PACKAGE_DIR%\\" + d + "\" %EXECUTION_DIR%\\" + f + " || GOTO EOF"
            == "call :copyandcheck \"%PACKAGE_DIR%\\/lib\\foo.dll\" %EXECUTION_DIR%\\lib\\foo.dll || GOTO EOF"
  {
    CmdCopyUnixSource(d);
    CmdCopyUnixMiddle();
    CmdCopyUnixTarget(f);
    CmdCopyUnixEnd();
  }

  // The four joins of the Unix example batch line, one lemma each, for the
  // same reason as the joins of the `.sh` example line.

  lemma CmdCopyUnixSource(d: string)
    requires d == "/lib\\foo.dll"
    ensures "call :copyandcheck \"%PACKAGE_DIR%\\" + d == "call :copyandcheck \"%PACKAGE_DIR%\\/lib\\foo.dll"
  {
  }

  lemma CmdCopyUnixMiddle()
    ensures "call :copyandcheck \"%PACKAGE_DIR%\\/lib\\foo.dll" + "\" %EXECUTION_DIR%\\"
            == "call :copyandcheck \"%PACKAGE_DIR%\\/lib\\foo.dll\" %EXECUTION_DIR%\\"
  {
  }

  lemma CmdCopyUnixTarget(f: string)
    requires f == "lib\\foo.dll"
    ensures "call :copyandcheck \"%PACKAGE_DIR%\\/lib\\foo.dll\" %EXECUTION_DIR%\\" + f
            == "call :copyandcheck \"%PACKAGE_DIR%\\/lib\\foo.dll\" %EXECUTION_DIR%\\lib\\foo.dll"
  {
  }

  lemma CmdCopyUnixEnd()
    ensures "call :copyandcheck \"%PACKAGE_DIR%\\/lib\\foo.dll\" %EXECUTION_DIR%\\lib\\foo.dll" + " || GOTO EOF"
            == "call :copyandcheck \"%PACKAGE_DIR%\\/lib\\foo.dll\" %EXECUTION_DIR%\\lib\\foo.dll || GOTO EOF"
  {
  }

  /**
   The literal pieces of the example batch copy line, joined one at a time.
   The verifier does not find the equality of the two long literals without
   the intermediate joins.
   */
  lemma CmdCopyLiteral(d: string, f: string)
    requires d == "/lib\\foo.dll" && f == "foo.dll"
    ensures "call :copyandcheck \"%PACKAGE_DIR%\\" + d + "\" %EXECUTION_DIR%\\" + f + " || GOTO EOF"
            == "call :copyandcheck \"%PACKAGE_DIR%\\/lib\\foo.dll\" %EXECUTION_DIR%\\foo.dll || GOTO EOF"
  {
    assert "call :copyandcheck \"%PACKAGE_DIR%\\" + d == "call :copyandcheck \"%PACKAGE_DIR%\\/lib\\foo.dll";
    assert "call :copyandcheck \"%PACKAGE_DIR%\\/lib\\foo.dll" + "\" %EXECUTION_DIR%\\"
        == "call :copyandcheck \"%PACKAGE_DIR%\\/lib\\foo.dll\" %EXECUTION_DIR%\\";
    assert "call :copyandcheck \"%PACKAGE_DIR%\\/lib\\foo.dll\" %EXECUTION_DIR%\\" + f
        == "call :copyandcheck \"%PACKAGE_DIR%\\/lib\\foo.dll\" %EXECUTION_DIR%\\foo.dll";
    assert "call :copyandcheck \"%PACKAGE_DIR%\\/lib\\foo.dll\" %EXECUTION_DIR%\\foo.dll" + " || GOTO EOF"
        == "call :copyandcheck \"%PACKAGE_DIR%\\/lib\\foo.dll\" %EXECUTION_DIR%\\foo.dll || GOTO EOF";
  }

  /** The batch `copyandcheck` call of each dependency, in order. */
  function CmdCopyCommands(deps: seq<string>, seps: set<char>): seq<string> {
    seq(|deps|, i requires 0 <= i < |deps| => CmdCopyCommand(deps[i], seps))
  }

  /** The text put in place of `[[CopyFilesCommands]]` in a batch script; `AppendLine` ends each line with `newLine`. */
  function CmdCopyBlock(deps: seq<string>, seps: set<char>, newLine: string): string {
    Lines(CmdCopyCommands(deps, seps), newLine)
  }

  /** The text put in place of `[[TestRunCommand]]` in a batch script: the commands joined with CR LF. */
  function CmdRunBlock(cmds: seq<string>): string {
    Join(cmds, "\r\n")
  }

  /** A `copyandcheck` call contains a line break character only if its dependency does. */
  lemma CmdCopyCommandAvoids(dep: string, seps: set<char>, ch: char)
    requires ch == '\n' || ch == '\r'
    requires ch !in dep
    ensures ch !in CmdCopyCommand(dep, seps)
  {
    FileNameAvoids(dep, seps, ch);
    CmdCopyPiecesPlain(ch);
    AvoidsPieces("call :copyandcheck \"%PACKAGE_DIR%\\", dep, "\" %EXECUTION_DIR%\\", FileName(dep, seps), " || GOTO EOF", ch);
  }

  /** The fixed pieces of a `copyandcheck` call hold no line break character. */
  lemma CmdCopyPiecesPlain(ch: char)
    requires ch == '\n' || ch == '\r'
    ensures ch !in "call :copyandcheck \"%PACKAGE_DIR%\\" && ch !in "\" %EXECUTION_DIR%\\" && ch !in " || GOTO EOF"
  {
    LineBreakFree("call :copyandcheck \"%PACKAGE_DIR%\\", ch);
    LineBreakFree("\" %EXECUTION_DIR%\\", ch);
    LineBreakFree(" || GOTO EOF", ch);
  }

  /**
   The batch copy block has exactly one line per dependency, in order, each
   the unnormalised dependency in a `copyandcheck` call, each ended by the
   platform newline.
   */
  lemma CmdCopyBlockLines(deps: seq<string>, seps: set<char>, newLine: string)
    requires newLine == "\r\n" || newLine == "\n"
    requires NoneContains(deps, newLine[0])
    ensures Split(CmdCopyBlock(deps, seps, newLine), newLine) == CmdCopyCommands(deps, seps) + [""]
  {
    var cmds := CmdCopyCommands(deps, seps);
    var ch := newLine[0];
    assert ch == '\n' || ch == '\r';
    forall i | 0 <= i < |cmds| ensures ch !in cmds[i] {
      CmdCopyCommandAvoids(deps[i], seps, ch);
    }
    LinesSplit(cmds, newLine);
  }

  /** No test commands give an empty run block, which splits into one empty piece. */
  lemma CmdRunBlockEmpty()
    ensures CmdRunBlock([]) == ""
    ensures Split(CmdRunBlock([]), "\r\n") == [""]
  {
    assert IndexOf("", "\r\n") == -1;
  }

  /**
   The batch run block holds the commands unchanged and in order, separated
   by CR LF with no trailing separator: splitting it on CR LF gives them back.
   */
  lemma CmdRunBlockSplits(cmds: seq<string>)
    requires |cmds| > 0 && NoneContains(cmds, '\r')
    ensures Split(CmdRunBlock(cmds), "\r\n") == cmds
  {
    SplitJoin(cmds, "\r\n");
  }

  /**
   The batch script: both placeholders substituted, no line-ending clean-up,
   then one platform newline appended by `WriteLine`.
   */
  function CmdScript(template: string, deps: seq<string>, cmds: seq<string>, seps: set<char>, newLine: string)
    : (script: string)
    ensures |script| >= |newLine| && script[|script| - |newLine|..] == newLine
  {
    Substitute(template, CmdCopyBlock(deps, seps, newLine), CmdRunBlock(cmds)) + newLine
  }

  /**
   Expanding a batch template with one of each placeholder gives the text
   around the tokens unchanged, the copy block and the CR LF-joined commands
   in their places, and one trailing newline; CR LF is kept wherever it is.
   */
  lemma CmdScriptOneOfEach(a: string, b: string, c: string, deps: seq<string>, cmds: seq<string>,
                           seps: set<char>, newLine: string)
    requires !Contains(a, CopyToken) && !Contains(b + RunToken + c, CopyToken)
    requires !Contains(a + CmdCopyBlock(deps, seps, newLine) + b, RunToken) && !Contains(c, RunToken)
    ensures CmdScript(a + CopyToken + b + RunToken + c, deps, cmds, seps, newLine)
            == a + CmdCopyBlock(deps, seps, newLine) + b + Join(cmds, "\r\n") + c + newLine
  {
    SubstituteOneOfEach(a, b, c, CmdCopyBlock(deps, seps, newLine), CmdRunBlock(cmds));
  }

  /** Substitution order: a test-run token inside a dependency is substituted too, but not the reverse. */
  lemma SubstitutionOrder()
    ensures Substitute(CopyToken, RunToken, "run") == "run"
    ensures Substitute(RunToken, "copy", CopyToken) == CopyToken
  {
    TokensBorderFree();
    assert CopyToken == "" + CopyToken + "";
    assert RunToken == "" + RunToken + "";
    FirstAfterPlain("", CopyToken, "");
    ReplaceAllAt("", CopyToken, "", RunToken);
    FirstAfterPlain("", RunToken, "");
    ReplaceAllAt("", RunToken, "", "run");
    ReplaceAllAt("", RunToken, "", CopyToken);
    ReplaceAllAbsent(RunToken, CopyToken, "copy");
  }
}

=== FILE: strings.dfy ===
/**
 Ordinal string operations of the .NET base library that the script
 generator relies on: `IndexOf`, `Replace` (both the character and the
 string overload), `Split` and `Join`. Strings are `seq<char>`; every
 comparison is ordinal (character by character).
 */
module Strings {

  /** `pat` occurs in `s` starting at position `i`. */
  predicate OccursAt(s: string, pat: string, i: int) {
    0 <= i && i + |pat| <= |s| && s[i..i + |pat|] == pat
  }

  /** `pat` occurs somewhere in `s`. */
  predicate Contains(s: string, pat: string) {
    exists i :: 0 <= i <= |s| - |pat| && OccursAt(s, pat, i)
  }

  /** Shifting by one character preserves occurrences. */
  lemma OccursAtTail(s: string, pat: string, j: int)
    requires |s| > 0 && 0 <= j
    ensures OccursAt(s[1..], pat, j) <==> OccursAt(s, pat, j + 1)
  {
    if j + |pat| <= |s| - 1 {
      assert s[1..][j..j + |pat|] == s[j + 1..j + 1 + |pat|];
    }
  }

  /** Position of the first occurrence of `pat` in `s`, or -1 (ordinal `String.IndexOf`). */
  function IndexOf(s: string, pat: string): (r: int)
    ensures r == -1 || (0 <= r && r + |pat| <= |s|)
    decreases |s|
  {
    if |s| < |pat| then -1
    else if s[..|pat|] == pat then 0
    else
      var k := IndexOf(s[1..], pat);
      if k < 0 then -1 else k + 1
  }

  /**
   `IndexOf` returns -1 or a position where `pat` occurs, and `pat` occurs
   at no earlier position (at none at all when the result is -1).
   */
  lemma {:induction false} IndexOfFirst(s: string, pat: string)
    ensures IndexOf(s, pat) == -1 || OccursAt(s, pat, IndexOf(s, pat))
    ensures forall j :: 0 <= j && (IndexOf(s, pat) < 0 || j < IndexOf(s, pat)) ==> !OccursAt(s, pat, j)
    decreases |s|
  {
    if |s| >= |pat| && s[..|pat|] != pat {
      var k := IndexOf(s[1..], pat);
      IndexOfFirst(s[1..], pat);
      assert !OccursAt(s, pat, 0);
      forall j | 1 <= j && (k < 0 || j < k + 1) ensures !OccursAt(s, pat, j) {
        OccursAtTail(s, pat, j - 1);
      }
      if k >= 0 {
        OccursAtTail(s, pat, k);
      }
    } else if |s| < |pat| {
      forall j | 0 <= j ensures !OccursAt(s, pat, j) {
      }
    }
  }

  /** The position of the first occurrence: `pat` occurs at `i` and at no earlier position. */
  lemma IndexOfAt(s: string, pat: string, i: int)
    requires OccursAt(s, pat, i)
    requires forall j :: 0 <= j < i ==> !OccursAt(s, pat, j)
    ensures IndexOf(s, pat) == i
  {
    IndexOfFirst(s, pat);
  }

  /** `IndexOf` finds an occurrence exactly when there is one. */
  lemma IndexOfFinds(s: string, pat: string)
    ensures IndexOf(s, pat) >= 0 <==> Contains(s, pat)
  {
    IndexOfFirst(s, pat);
    var r := IndexOf(s, pat);
    if r >= 0 {
      assert OccursAt(s, pat, r);
    }
  }

  /** If the first character of `pat` never appears in `s`, neither does `pat`. */
  lemma AbsentFirstChar(s: string, pat: string)
    requires |pat| > 0 && pat[0] !in s
    ensures !Contains(s, pat)
  {
    forall i | 0 <= i <= |s| - |pat| ensures !OccursAt(s, pat, i) {
      assert s[i..i + |pat|][0] == s[i];
    }
  }

  /**
   `s.Replace(a, b)` with character arguments: every `a` becomes `b`,
   every other character stays where it is.
   */
  function ReplaceChar(s: string, a: char, b: char): (r: string)
    ensures |r| == |s|
    ensures forall i :: 0 <= i < |s| ==> r[i] == (if s[i] == a then b else s[i])
    ensures a != b ==> a !in r
  {
    if |s| == 0 then ""
    else [if s[0] == a then b else s[0]] + ReplaceChar(s[1..], a, b)
  }

  /**
   `s.Replace(pat, rep)` with string arguments: find the first occurrence
   of `pat`, put `rep` in its place and carry on after it, so every
   non-overlapping occurrence found left to right is replaced.
   */
  function ReplaceAll(s: string, pat: string, rep: string): string
    requires |pat| > 0
    decreases |s|
  {
    var k := IndexOf(s, pat);
    if k < 0 then s else s[..k] + rep + ReplaceAll(s[k + |pat|..], pat, rep)
  }

  /**
   Reference definition of the same replacement as a character-by-character
   scan: at each position either the pattern starts there and is replaced,
   or the character is copied.
   */
  function ReplaceScan(s: string, pat: string, rep: string): string
    requires |pat| > 0
    decreases |s|
  {
    if |s| < |pat| then s
    else if s[..|pat|] == pat then rep + ReplaceScan(s[|pat|..], pat, rep)
    else [s[0]] + ReplaceScan(s[1..], pat, rep)
  }

  /** `String.Join(sep, parts)`: the parts in order with `sep` between neighbours. */
  function Join(parts: seq<string>, sep: string): string
  {
    if |parts| == 0 then ""
    else if |parts| == 1 then parts[0]
    else parts[0] + sep + Join(parts[1..], sep)
  }

  /**
   `s.Split(sep)` with ordinal comparison: the pieces of `s` between the
   occurrences of `sep` found left to right. There is always one piece more
   than there are occurrences, and no piece contains `sep`.
   */
  function Split(s: string, sep: string): (parts: seq<string>)
    requires |sep| > 0
    ensures |parts| > 0
    decreases |s|
  {
    var k := IndexOf(s, sep);
    if k < 0 then [s] else [s[..k]] + Split(s[k + |sep|..], sep)
  }

  /** No piece of a split contains the separator. */
  lemma {:induction false} SplitPieces(s: string, sep: string)
    requires |sep| > 0
    ensures forall i :: 0 <= i < |Split(s, sep)| ==> !Contains(Split(s, sep)[i], sep)
    decreases |s|
  {
    var k := IndexOf(s, sep);
    IndexOfFirst(s, sep);
    if k < 0 {
      IndexOfFinds(s, sep);
    } else {
      var head := s[..k];
      assert !Contains(head, sep) by {
        forall j | 0 <= j <= |head| - |sep| ensures !OccursAt(head, sep, j) {
          assert !OccursAt(s, sep, j);
          assert head[j..j + |sep|] == s[j..j + |sep|];
        }
      }
      SplitPieces(s[k + |sep|..], sep);
    }
  }

  /** Each string followed by `term`, concatenated (what a loop of `Append(x + term)` builds). */
  function Lines(ls: seq<string>, term: string): (r: string)
    ensures |ls| > 0 ==> |r| >= |term| && r[|r| - |term|..] == term
  {
    if |ls| == 0 then "" else ls[0] + term + Lines(ls[1..], term)
  }

  // ---------------------------------------------------------------------
  // Split and Join are inverse to each other.
  // ---------------------------------------------------------------------

  /** Joining the pieces of a split with the separator gives back the original string. */
  lemma {:induction false} JoinSplit(s: string, sep: string)
    requires |sep| > 0
    ensures Join(Split(s, sep), sep) == s
    decreases |s|
  {
    var k := IndexOf(s, sep);
    if k >= 0 {
      var rest := s[k + |sep|..];
      assert s[k..k + |sep|] == sep by {
        IndexOfFirst(s, sep);
      }
      assert s == s[..k] + sep + rest;
      JoinSplit(rest, sep);
      var parts := Split(rest, sep);
      assert Split(s, sep) == [s[..k]] + parts;
      assert ([s[..k]] + parts)[1..] == parts;
    }
  }

  /** The first occurrence of `sep` in `p + sep + rest` is right after `p` when `p` lacks `sep[0]`. */
  lemma IndexOfAfterPlain(p: string, sep: string, rest: string)
    requires |sep| > 0 && sep[0] !in p
    ensures IndexOf(p + sep + rest, sep) == |p|
  {
    var s := p + sep + rest;
    assert OccursAt(s, sep, |p|) by {
      assert s[|p|..|p| + |sep|] == sep;
    }
    forall j | 0 <= j < |p| ensures !OccursAt(s, sep, j) {
      assert s[j] == p[j];
      if j + |sep| <= |s| {
        assert s[j..j + |sep|][0] == s[j];
      }
    }
    IndexOfAt(s, sep, |p|);
  }

  /** Splitting a join gives back the parts, provided no part contains the separator's first character. */
  lemma {:induction false} SplitJoin(parts: seq<string>, sep: string)
    requires |parts| > 0 && |sep| > 0
    requires forall i :: 0 <= i < |parts| ==> sep[0] !in parts[i]
    ensures Split(Join(parts, sep), sep) == parts
    decreases |parts|
  {
    if |parts| == 1 {
      AbsentFirstChar(parts[0], sep);
      IndexOfFinds(parts[0], sep);
    } else {
      var rest := Join(parts[1..], sep);
      var s := parts[0] + sep + rest;
      assert Join(parts, sep) == s;
      IndexOfAfterPlain(parts[0], sep, rest);
      assert s[..|parts[0]|] == parts[0];
      assert s[|parts[0]| + |sep|..] == rest;
      assert Split(s, sep) == [parts[0]] + Split(rest, sep);
      SplitJoin(parts[1..], sep);
      assert parts == [parts[0]] + parts[1..];
    }
  }

  /** Terminated lines are a join of the lines and one empty trailing piece. */
  lemma {:induction false} LinesIsJoin(ls: seq<string>, term: string)
    ensures Lines(ls, term) == Join(ls + [""], term)
    decreases |ls|
  {
    if |ls| > 0 {
      LinesIsJoin(ls[1..], term);
      assert (ls + [""])[1..] == ls[1..] + [""];
    }
  }

  /**
   Splitting terminated lines on the terminator yields the lines in order
   and one empty trailing piece: one line per element.
   */
  lemma LinesSplit(ls: seq<string>, term: string)
    requires |term| > 0
    requires forall i :: 0 <= i < |ls| ==> term[0] !in ls[i]
    ensures Split(Lines(ls, term), term) == ls + [""]
  {
    LinesIsJoin(ls, term);
    var parts := ls + [""];
    assert forall i :: 0 <= i < |parts| ==> term[0] !in parts[i] by {
      forall i | 0 <= i < |parts| ensures term[0] !in parts[i] {
        if i < |ls| { assert parts[i] == ls[i]; }
      }
    }
    SplitJoin(parts, term);
  }

  // ---------------------------------------------------------------------
  // ReplaceAll agrees with the scan and with Join over Split.
  // ---------------------------------------------------------------------

  /** Where the pattern does not start, the scan copies the first character and goes on. */
  lemma ScanSkip(s: string, pat: string, rep: string)
    requires |pat| > 0 && |s| > 0 && !OccursAt(s, pat, 0)
    ensures ReplaceScan(s, pat, rep) == [s[0]] + ReplaceScan(s[1..], pat, rep)
  {
    if |s| >= |pat| {
      assert s[..|pat|] != pat;
    } else {
      assert [s[0]] + s[1..] == s;
    }
  }

  /** Putting back the first character of `s` in front of a prefix of its tail. */
  lemma PrependPrefix(s: string, k: int, x: string, y: string, z: string)
    requires 0 < k <= |s| && x == [s[0]] + y && y == s[1..][..k - 1] + z
    ensures x == s[..k] + z
  {
    assert [s[0]] + s[1..][..k - 1] == s[..k];
  }

  /** The scan copies every character before the first position where the pattern occurs. */
  lemma {:induction false} ScanCopies(s: string, pat: string, rep: string, k: int)
    requires |pat| > 0 && 0 <= k <= |s|
    requires forall j :: 0 <= j < k ==> !OccursAt(s, pat, j)
    ensures ReplaceScan(s, pat, rep) == s[..k] + ReplaceScan(s[k..], pat, rep)
    decreases k
  {
    if k == 0 {
      assert s[..0] + s[0..] == s[0..] == s;
    } else {
      var t := s[1..];
      ScanSkip(s, pat, rep);
      forall j | 0 <= j < k - 1 ensures !OccursAt(t, pat, j) {
        OccursAtTail(s, pat, j);
      }
      ScanCopies(t, pat, rep, k - 1);
      assert t[k - 1..] == s[k..];
      PrependPrefix(s, k, ReplaceScan(s, pat, rep), ReplaceScan(t, pat, rep), ReplaceScan(s[k..], pat, rep));
    }
  }

  /** Where the pattern occurs, the scan puts the replacement and carries on after it. */
  lemma ScanAt(s: string, pat: string, rep: string, k: int)
    requires |pat| > 0 && OccursAt(s, pat, k)
    ensures ReplaceScan(s[k..], pat, rep) == rep + ReplaceScan(s[k + |pat|..], pat, rep)
  {
    assert s[k..][..|pat|] == pat;
    assert s[k..][|pat|..] == s[k + |pat|..];
  }

  /** The scan leaves a string without the pattern unchanged. */
  lemma ScanNotFound(s: string, pat: string, rep: string)
    requires |pat| > 0 && IndexOf(s, pat) < 0
    ensures ReplaceScan(s, pat, rep) == s
  {
    IndexOfFirst(s, pat);
    ScanCopies(s, pat, rep, |s|);
    assert s[..|s|] == s;
  }

  /** The scan copies the text before the first occurrence and replaces that occurrence. */
  lemma ScanFound(s: string, pat: string, rep: string)
    requires |pat| > 0 && IndexOf(s, pat) >= 0
    ensures ReplaceScan(s, pat, rep)
            == s[..IndexOf(s, pat)] + rep + ReplaceScan(s[IndexOf(s, pat) + |pat|..], pat, rep)
  {
    var k := IndexOf(s, pat);
    IndexOfFirst(s, pat);
    ScanCopies(s, pat, rep, k);
    ScanAt(s, pat, rep, k);
  }

  /** Where the pattern occurs, `ReplaceAll` keeps the text before it, puts the replacement and goes on after it. */
  lemma ReplaceAllFound(s: string, pat: string, rep: string)
    requires |pat| > 0 && IndexOf(s, pat) >= 0
    ensures ReplaceAll(s, pat, rep)
            == s[..IndexOf(s, pat)] + rep + ReplaceAll(s[IndexOf(s, pat) + |pat|..], pat, rep)
  {
  }

  /** Replacing occurrence by occurrence agrees with the character-by-character scan. */
  lemma {:induction false} ReplaceAllIsScan(s: string, pat: string, rep: string)
    requires |pat| > 0
    ensures ReplaceAll(s, pat, rep) == ReplaceScan(s, pat, rep)
    decreases |s|
  {
    var k := IndexOf(s, pat);
    if k < 0 {
      assert ReplaceScan(s, pat, rep) == s by {
        ScanNotFound(s, pat, rep);
      }
    } else {
      var rest := s[k + |pat|..];
      var tail := ReplaceAll(rest, pat, rep);
      assert ReplaceScan(s, pat, rep) == s[..k] + rep + tail by {
        ReplaceAllIsScan(rest, pat, rep);
        ScanFound(s, pat, rep);
      }
      ReplaceAllFound(s, pat, rep);
    }
  }

  /** Replacing every occurrence equals splitting on the pattern and joining with the replacement. */
  lemma {:induction false} ReplaceAllIsJoinSplit(s: string, pat: string, rep: string)
    requires |pat| > 0
    ensures ReplaceAll(s, pat, rep) == Join(Split(s, pat), rep)
    decreases |s|
  {
    var k := IndexOf(s, pat);
    if k >= 0 {
      var rest := s[k + |pat|..];
      ReplaceAllIsJoinSplit(rest, pat, rep);
      assert Split(s, pat) == [s[..k]] + Split(rest, pat);
    }
  }

  /** A string without the pattern is left unchanged. */
  lemma ReplaceAllAbsent(s: string, pat: string, rep: string)
    requires |pat| > 0 && !Contains(s, pat)
    ensures ReplaceAll(s, pat, rep) == s
  {
    IndexOfFinds(s, pat);
  }

  /** Substituting a pattern that first occurs right after `x` keeps `x` and continues after the pattern. */
  lemma ReplaceAllAt(x: string, pat: string, y: string, rep: string)
    requires |pat| > 0 && IndexOf(x + pat + y, pat) == |x|
    ensures ReplaceAll(x + pat + y, pat, rep) == x + rep + ReplaceAll(y, pat, rep)
  {
    var s := x + pat + y;
    assert s[..|x|] == x;
    assert s[|x| + |pat|..] == y;
  }

  /** Every character of a replacement's result comes from the input or from the replacement text. */
  lemma {:induction false} ReplaceAllChars(s: string, pat: string, rep: string, c: char)
    requires |pat| > 0
    ensures c in ReplaceAll(s, pat, rep) ==> c in s || c in rep
    decreases |s|
  {
    var k := IndexOf(s, pat);
    if k >= 0 {
      var rest := s[k + |pat|..];
      var r := ReplaceAll(rest, pat, rep);
      ReplaceAllChars(rest, pat, rep, c);
      SpliceChars(s, k, |pat|, rep, r, c);
    }
  }

  /**
   A character of `s[..k] + rep + r` comes from `s` or `rep` when every
   character of `r` comes from `s[k + m..]` or `rep`.
   */
  lemma SpliceChars(s: string, k: nat, m: nat, rep: string, r: string, c: char)
    requires k + m <= |s|
    requires c in r ==> c in s[k + m..] || c in rep
    ensures c in s[..k] + rep + r ==> c in s || c in rep
  {
    if c in s[..k] {
      SliceChars(s, 0, k, c);
    }
    if c in s[k + m..] {
      SliceChars(s, k + m, |s|, c);
    }
  }

  /** A character of a slice is a character of the whole. */
  lemma SliceChars(s: string, i: int, j: int, c: char)
    requires 0 <= i <= j <= |s| && c in s[i..j]
    ensures c in s
  {
    var n :| 0 <= n < j - i && s[i..j][n] == c;
    assert s[i + n] == c;
  }

  /** The character overload of `Replace` agrees with the string overload on one-character strings. */
  lemma {:induction false} ReplaceCharIsReplaceAll(s: string, a: char, b: char)
    ensures ReplaceChar(s, a, b) == ReplaceAll(s, [a], [b])
  {
    ReplaceCharIsScan(s, a, b);
    ReplaceAllIsScan(s, [a], [b]);
  }

  /** The character overload of `Replace` is the scan with one-character strings. */
  lemma {:induction false} ReplaceCharIsScan(s: string, a: char, b: char)
    ensures ReplaceChar(s, a, b) == ReplaceScan(s, [a], [b])
    decreases |s|
  {
    if |s| > 0 {
      ReplaceCharIsScan(s[1..], a, b);
      if s[0] == a {
        assert s[..1] == [a];
      } else {
        assert s[..1] != [a];
      }
    }
  }

  // ---------------------------------------------------------------------
  // Patterns without a proper border.
  // ---------------------------------------------------------------------

  /** No proper suffix of `p` is also a prefix of `p`, so two occurrences can never overlap. */
  ghost predicate BorderFree(p: string) {
    forall k :: 0 < k < |p| ==> p[k..] != p[..|p| - k]
  }

  /** A pattern that opens with `[[` and has no other `[` is border-free. */
  lemma BracketedBorderFree(p: string)
    requires |p| >= 3 && p[0] == '[' && p[1] == '['
    requires forall i :: 2 <= i < |p| ==> p[i] != '['
    ensures BorderFree(p)
  {
    forall k | 0 < k < |p| ensures p[k..] != p[..|p| - k] {
      if k == 1 {
        assert p[k..][1] != p[..|p| - k][1];
      } else {
        assert p[k..][0] != p[..|p| - k][0];
      }
    }
  }

  /** A pattern whose first character does not recur is border-free. */
  lemma UniqueFirstBorderFree(p: string)
    requires |p| > 0 && forall i :: 1 <= i < |p| ==> p[i] != p[0]
    ensures BorderFree(p)
  {
    forall k | 0 < k < |p| ensures p[k..] != p[..|p| - k] {
      assert p[k..][0] != p[..|p| - k][0];
    }
  }

  /**
   When `x` does not contain a border-free `pat`, the first occurrence of
   `pat` in `x + pat + y` is the one right after `x`.
   */
  lemma FirstAfterPlain(x: string, pat: string, y: string)
    requires |pat| > 0 && BorderFree(pat) && !Contains(x, pat)
    ensures IndexOf(x + pat + y, pat) == |x|
  {
    var s := x + pat + y;
    assert OccursAt(s, pat, |x|) by {
      assert s[|x|..|x| + |pat|] == pat;
    }
    forall j | 0 <= j < |x| ensures !OccursAt(s, pat, j) {
      if j + |pat| <= |x| {
        assert s[j..j + |pat|] == x[j..j + |pat|];
        assert !OccursAt(x, pat, j);
      } else {
        var k := |x| - j;
        assert s[j..j + |pat|][k..] == pat[..|pat| - k];
        assert pat[k..] != pat[..|pat| - k];
      }
    }
    IndexOfAt(s, pat, |x|);
  }

  /** A single occurrence of a border-free pattern is replaced and nothing else changes. */
  lemma ReplaceSingle(x: string, pat: string, y: string, rep: string)
    requires |pat| > 0 && BorderFree(pat) && !Contains(x, pat) && !Contains(y, pat)
    ensures ReplaceAll(x + pat + y, pat, rep) == x + rep + y
  {
    FirstAfterPlain(x, pat, y);
    ReplaceAllAt(x, pat, y, rep);
    ReplaceAllAbsent(y, pat, rep);
  }
}

=== FILE: task.dfy ===
/**
 The `Execute` entry point of the `GenerateTestExecutionScripts` build
 task. The file system is not modelled: whether the template exists, its
 text and whether the output directory could be created are inputs, and the
 text the task would write is the result.
 */
module TestExecutionScripts {
  import opened Strings
  import opened Paths
  import opened Scripts

  /** The two script dialects the task can write. */
  datatype Dialect = Shell | Batch

  datatype Option<T> = None | Some(value: T)

  /** What one run of the task ends with. */
  datatype Outcome =
    | Written(script: string)          // the script text written to the output path
    | FileNotFound                     // the template does not exist
    | DirectoryError                   // the output directory could not be created
    | NotSupported(extension: string)  // the output extension names no known dialect

  /** The lower-cased extension of the output file's name. */
  function OutputExtension(outputPath: string, platform: Platform): string {
    LowerExtension(outputPath, platform.Separators())
  }

  /** The dialect chosen by the lower-cased extension: `.sh`, or `.cmd` and `.bat`. */
  function DialectOf(outputPath: string, platform: Platform): Option<Dialect> {
    var ext := OutputExtension(outputPath, platform);
    if ext == ".sh" then Some(Shell)
    else if ext == ".cmd" || ext == ".bat" then Some(Batch)
    else None
  }

  /**
   The dialect depends only on how the output path ends, ignoring case: a
   `.sh` ending selects the shell dialect, a `.cmd` or `.bat` ending the
   batch dialect, and every other path (no extension, `.ps1`, `x.sh.txt`,
   a trailing dot) selects none.
   */
  lemma DialectBySuffix(outputPath: string, platform: Platform)
    ensures DialectOf(outputPath, platform) == Some(Shell) <==> EndsWithIgnoreCase(outputPath, ".sh")
    ensures DialectOf(outputPath, platform) == Some(Batch) <==>
              EndsWithIgnoreCase(outputPath, ".cmd") || EndsWithIgnoreCase(outputPath, ".bat")
  {
    var seps := platform.Separators();
    assert ExtensionLiteral(".sh") && ExtensionLiteral(".cmd") && ExtensionLiteral(".bat");
    ExtensionIsSuffix(outputPath, seps, ".sh");
    ExtensionIsSuffix(outputPath, seps, ".cmd");
    ExtensionIsSuffix(outputPath, seps, ".bat");
  }

  /** The output path ends with none of the supported extensions. */
  predicate Unsupported(outputPath: string) {
    && !EndsWithIgnoreCase(outputPath, ".sh")
    && !EndsWithIgnoreCase(outputPath, ".cmd")
    && !EndsWithIgnoreCase(outputPath, ".bat")
  }

  /**
   One run of the task. A missing template is reported before anything
   else happens; the output directory is created next, and only then is an
   unsupported extension reported, so that error leaves the directory
   behind but writes no script.
   */
  function Execute(templateExists: bool, template: string, directoryCreated: bool, outputPath: string,
                   deps: seq<string>, cmds: seq<string>, platform: Platform): (r: Outcome)
    ensures r == FileNotFound <==> !templateExists
    ensures r == DirectoryError <==> templateExists && !directoryCreated
    ensures r.Written? <==> templateExists && directoryCreated && !Unsupported(outputPath)
    ensures r.NotSupported? <==> templateExists && directoryCreated && Unsupported(outputPath)
    ensures r.NotSupported? ==> r.extension == OutputExtension(outputPath, platform)
    ensures r.Written? && EndsWithIgnoreCase(outputPath, ".sh") ==>
              r.script == ShScript(template, deps, cmds, platform.Separators())
    ensures r.Written? && !EndsWithIgnoreCase(outputPath, ".sh") ==>
              r.script == CmdScript(template, deps, cmds, platform.Separators(), platform.NewLine())
  {
    if !templateExists then FileNotFound
    else if !directoryCreated then DirectoryError
    else
      DialectBySuffix(outputPath, platform);
      match DialectOf(outputPath, platform)
      case Some(Shell) => Written(ShScript(template, deps, cmds, platform.Separators()))
      case Some(Batch) => Written(CmdScript(template, deps, cmds, platform.Separators(), platform.NewLine()))
      case None => NotSupported(OutputExtension(outputPath, platform))
  }

  /** Upper-case extensions are accepted: `RunTests.SH` is a shell script. */
  lemma DispatchIgnoresCaseSh(path: string, platform: Platform)
    requires path == "out/RunTests.SH"
    ensures DialectOf(path, platform) == Some(Shell)
  {
    assert EndsWithIgnoreCase(path, ".sh") by {
      assert path[12..] == ".SH";
    }
    DialectBySuffix(path, platform);
  }

  /** Mixed-case batch extensions are accepted: `RunTests.Bat` is a batch script. */
  lemma DispatchIgnoresCaseBat(path: string, platform: Platform)
    requires path == "out/RunTests.Bat"
    ensures DialectOf(path, platform) == Some(Batch)
  {
    assert EndsWithIgnoreCase(path, ".bat") by {
      assert path[12..] == ".Bat";
    }
    DialectBySuffix(path, platform);
  }

  /** A PowerShell output path is not supported, and the error names its extension. */
  lemma DispatchRejectsPs1(path: string, platform: Platform)
    requires path == "out/RunTests.ps1"
    ensures DialectOf(path, platform) == None
    ensures OutputExtension(path, platform) == ".ps1"
  {
    assert OutputExtension(path, platform) == ".ps1" by {
      assert EndsWithIgnoreCase(path, ".ps1") by {
        assert path[12..] == ".ps1";
      }
      ExtensionIsSuffix(path, platform.Separators(), ".ps1");
    }
  }

  /** Only the last extension counts: `x.sh.txt` is not a shell script. */
  lemma DispatchUsesLastExtension(path: string, platform: Platform)
    requires path == "out/x.sh.txt"
    ensures DialectOf(path, platform) == None
    ensures OutputExtension(path, platform) == ".txt"
  {
    assert OutputExtension(path, platform) == ".txt" by {
      assert EndsWithIgnoreCase(path, ".txt") by {
        assert path[8..] == ".txt";
      }
      ExtensionIsSuffix(path, platform.Separators(), ".txt");
    }
  }

  /** A trailing dot gives an empty extension, which is not supported. */
  lemma DispatchTrailingDot(path: string, platform: Platform)
    requires path == "out/RunTests.sh."
    ensures DialectOf(path, platform) == None
    ensures OutputExtension(path, platform) == ""
  {
    var seps := platform.Separators();
    FileNameAfter(path, seps, 3);
    var name := path[4..];
    var k := LastIndexOfAny(name, seps + {'.'});
    assert k == |name| - 1;
  }
}
